=== FILE: README.md ===
# Kölner Phonetik in Dafny

This project models `calculate` in `src/lib.rs`, the only function of the
`koelner_phonetik` crate. It maps a German word or phrase to its Kölner
Phonetik (Cologne phonetics) code: a string of the digits 0 to 8 and spaces.
Each run of input spaces gives one space in the output. Characters that
produce no code between two spaces do not stop them merging: "a  b" and
"a - b" both give "0 1" (`SpacesMerge`). The function works in four steps, and each
step is one Dafny module:

- `Lowercasing` (`lowercase.dfy`) lower-cases the input (`to_lowercase`).
- `Classifier` (`classifier.dfy`) is the first loop. It scans the text from
  left to right and turns each character into its raw code: nothing, one
  digit, "48" for an x, or a space. The rule for a character may peek at the
  next character. It may also look at two locals: `last`, the previous
  character, and `firsts`, which says whether that character was an `s`
  starting a word. `Code` is the `match`, `Advance` updates the locals, and
  `Classify` is the loop.
- `Collapser` (`collapser.dfy`) is the second loop. A raw character is kept
  only when the raw character after it differs.
- `Pruner` (`pruner.dfy`) is the third loop. It drops every '0' except one
  that arrives while the output is still empty.
- `KoelnerPhonetik` (`phonetik.dfy`) puts the passes together as `Calculate`.
  It also writes the three loops as imperative methods and proves that they
  compute the recursive definitions.
- `TestVectors` (`vectors.dfy`) proves that the model gives the results that
  the crate's documentation example and unit tests expect. Only a selection
  of the unit-test vectors is covered. Each vector is proved phase by phase,
  on pieces of the text that the concatenation lemmas then join.

The computing functions (`Code`, `Classify`, `Collapse`, `RemoveZeros`,
`Calculate`) carry no postconditions of their own. Their properties are
stated as lemmas: the `...Shape` lemmas, the rule lemmas, the concatenation
lemmas and the reference definitions. This also keeps the literal test
vectors cheap to evaluate.

Facts about the code that the model keeps, some of them unexpected:

- `last` is set after every character other than a space. That includes h,
  the hyphen and characters that produce no code. So in "Heinz-Classen" the
  c comes after the hyphen and is not at the start of a word.
- A space clears `last` but leaves `firsts` unchanged. This makes no
  difference: with no previous character the c rule holds anyway, and the
  next character other than a space resets `firsts`. Until then `last`
  stays empty (`WordStartIgnoresFirsts`).
- The code can be longer than the input ("X" gives "48", see
  `LongerThanInput`).
- The code can hold two equal neighbours ("Mond" gives "662", see
  `AdjacentDuplicatesSurvive`), because the collapse runs before the zeros
  are pruned. The no-neighbouring-duplicates property holds only for the
  collapsed raw code (`CollapseNoAdjacentDup`).

## Model

| member | source | states |
|---|---|---|
| Lowercasing.LowerChar | src/lib.rs:14 | An ASCII capital or an umlaut becomes the lower-case letter that upper-cases back to it. The capital sharp s becomes ß and the Kelvin sign becomes k. Every other character is left as it is. The result is never a capital. A space stays a space, and nothing else becomes one. |
| Lowercasing.Lowercase | src/lib.rs:14 | The lower-cased text has the same length as the input. Each character is lower-cased in place, so no capital remains. |
| Lowercasing.LowercaseIdempotent | src/lib.rs:14 | Lower-casing twice gives the same text as lower-casing once. |
| Lowercasing.LowercaseConcat | src/lib.rs:14 | Lower-casing distributes over concatenation. |
| Lowercasing.LowercaseOfUppercase | src/lib.rs:14 | Lower-casing an upper-cased text gives the same result as lower-casing the original. |
| Classifier.Code | src/lib.rs:21-64 | The `match`: the raw code of one character, given the next character and the scan state. It has no contract of its own. Its properties are in `CodeShape`, `VowelAndSilentRules`, `PRule`, `DTRule`, `CRule`, `XRule`, `FixedRules`, `CodeIgnoresLookahead`, `CodeAtWordStart` and `PeekSpaceIsEnd`. |
| Classifier.CodeShape | src/lib.rs:21-64 | A character's code has at most two characters, all of them digits or a space. The code is empty exactly for h and for the characters that are not listed. It has two characters exactly for an x that is not after c, k or q. It contains a space exactly when the character is a space. |
| Classifier.VowelAndSilentRules | src/lib.rs:22-25 | a, e, i, j, o, u, y and the umlauts always give 0. h and the unlisted characters give nothing. |
| Classifier.PRule | src/lib.rs:28-35 | p gives 3 exactly when the next character is h, and 1 otherwise. |
| Classifier.DTRule | src/lib.rs:30-31 | d and t give 8 exactly when the next character is c, s or z, and 2 otherwise. |
| Classifier.CRule | src/lib.rs:38-46 | c gives 4 exactly when one of two cases holds. Case one: c is at a word start and the next character is one of a h k l o q r u x. Case two: c is not after s or z and the next character is one of a h k o q u x. In every other case c gives 8. |
| Classifier.XRule | src/lib.rs:47-48 | x gives 8 exactly after c, k or q, and 48 otherwise. |
| Classifier.FixedRules | src/lib.rs:26-62 | The codes that do not depend on context: b, f v w, g k q, l, m n, r, s z ß, and the space. |
| Classifier.Advance | src/lib.rs:65-74 | A space clears `last` and keeps `firsts`. Any other character becomes `last` itself. `firsts` is then true exactly when that character is an s and there was no previous character. |
| Classifier.Peek | src/lib.rs:29 | The lookahead is present exactly when characters remain, and it is the next character. |
| Classifier.CodeIgnoresLookahead | src/lib.rs:21-64 | Only p, d, t and c depend on the character ahead. |
| Classifier.CodeAtWordStart | src/lib.rs:40 | When there is no previous character, the `firsts` flag changes no code. |
| Classifier.PeekSpaceIsEnd | src/lib.rs:29-48 | No rule can tell a space ahead from the end of the text. |
| Classifier.Classify | src/lib.rs:15-78 | The first loop as a recursive scan. It has no contract of its own. `KoelnerPhonetik.ClassifyLoop` proves that the source-shaped loop computes it. Its properties are in `ClassifyShape`, `ClassifyConcat`, `ClassifySpaces` and `ClassifyWords`. |
| Classifier.ClassifyShape | src/lib.rs:19-78 | The raw code has at most two characters per input character, all of them digits or spaces. It is empty exactly when no input character produces a code. |
| Classifier.ClassifyConcat | src/lib.rs:19-78 | A text can be split after any character other than p, d, t or c. The two pieces are then coded one after the other, and the second starts from the state the first leaves behind. |
| Classifier.ClassifySpaces | src/lib.rs:62 | The raw code contains a space exactly when the text does. |
| Classifier.WordStartIgnoresFirsts | src/lib.rs:65-74 | A text scanned from a state with no previous character is coded as if from the start state, whatever `firsts` holds. |
| Classifier.ClassifyWords | src/lib.rs:19-78 | The raw code of u, a space and v is the raw code of u, then a space, then v coded from the start state. |
| Collapser.Collapse | src/lib.rs:79-85 | The second loop as a recursive function. It has no contract of its own. `KoelnerPhonetik.CollapseLoop` proves that the source-shaped loop computes it, and `CollapseIsDedup` relates it to an independent reference. Its other properties are in `CollapseShape`, `CollapseNoAdjacentDup`, `CollapseIdempotent`, `CollapseSubsequence` and `CollapseConcat`. |
| Collapser.CollapseShape | src/lib.rs:79-85 | Collapsing never makes the text longer and empties only the empty text. It keeps the first and the last character, and the same set of characters. |
| Collapser.CollapseStep | src/lib.rs:81-84 | One loop step keeps the head exactly when no next character exists or the next character differs. |
| Collapser.CollapseSnoc | src/lib.rs:79-85 | Appending a character adds it to the collapsed form exactly when it differs from the last character. |
| Collapser.CollapseIsDedup | src/lib.rs:79-85 | The loop keeps the last copy of each run. It agrees with an independent reference definition that keeps the first copy. |
| Collapser.CollapseNoAdjacentDup | src/lib.rs:79-85 | No two neighbouring characters of the collapsed code are equal. |
| Collapser.CollapseFixpoint | src/lib.rs:79-85 | A text with no equal neighbours is left as it is. |
| Collapser.CollapseIdempotent | src/lib.rs:79-85 | Collapsing twice gives the same result as collapsing once. |
| Collapser.CollapseSubsequence | src/lib.rs:79-85 | The collapsed code is the raw code with some characters left out. |
| Collapser.CollapseConcat | src/lib.rs:79-85 | Two pieces whose meeting characters differ are collapsed independently. |
| Pruner.RemoveZerosShape | src/lib.rs:88-93 | Dropping zeros never makes the text longer and leaves no '0'. A text without zeros is left as it is. |
| Pruner.RemoveZerosContents | src/lib.rs:88-93 | A character is in the result exactly when it is in the text and is not '0'. |
| Pruner.PruneInto | src/lib.rs:88-93 | The third loop with a non-empty output keeps the output and adds the rest without zeros. With an empty output it keeps the first character, zero or not, and drops the zeros after it. |
| Pruner.Prune | src/lib.rs:86-95 | The pruned code is the first character followed by the rest without zeros. It is empty exactly when the input is empty. |
| Pruner.PruneSubset | src/lib.rs:86-94 | Pruning only removes characters. |
| Pruner.PruneZeroOnlyAtHead | src/lib.rs:89-93 | After pruning, '0' can only be the first character, and the text is never longer. |
| Pruner.RemoveZerosConcat | src/lib.rs:88-93 | Dropping zeros distributes over concatenation. |
| Pruner.RemoveZerosIdempotent | src/lib.rs:88-93 | Dropping zeros twice gives the same result as dropping them once. |
| Pruner.PruneIdempotent | src/lib.rs:86-94 | Pruning twice gives the same result as pruning once. |
| Pruner.RemoveZerosOfPrune | src/lib.rs:86-94 | Pruning and dropping all zeros agree once all zeros are dropped. |
| Pruner.PruneAcrossSpace | src/lib.rs:89-93 | After a space every '0' is dropped, because the output is no longer empty. |
| KoelnerPhonetik.RawCode | src/lib.rs:14-78 | The raw code: the first loop run on the lower-cased text from the start state. It has no contract of its own. `CalculateShape` and `CalculateWords` state its properties through `Calculate`. |
| KoelnerPhonetik.Calculate | src/lib.rs:13-96 | `calculate`: lower-case, classify, collapse, prune. It has no contract of its own. `CalculateLoop` proves that the three source-shaped loops compute it. Its properties are in `CalculateShape`, `CaseInsensitive`, `CalculateWords` and the examples in `TestVectors`. |
| KoelnerPhonetik.CalculateShape | src/lib.rs:13-96 | The code holds only digits and spaces, with a '0' only in front, and has at most two characters per input character. It is empty exactly when no lower-cased character produces a code. Otherwise it starts with the first raw character. |
| KoelnerPhonetik.ClassifyLoop | src/lib.rs:15-78 | The source's first loop, with its `last` and `firsts` locals and its peek, computes `Classify` from the start state. |
| KoelnerPhonetik.CollapseLoop | src/lib.rs:79-85 | The source's second loop computes `Collapse`. |
| KoelnerPhonetik.PruneLoop | src/lib.rs:86-94 | The source's third loop computes `Prune`. |
| KoelnerPhonetik.CalculateLoop | src/lib.rs:13-96 | The three loops in sequence compute `Calculate`. |
| KoelnerPhonetik.CaseInsensitive | src/lib.rs:14 | Upper-casing or lower-casing the input first leaves the code unchanged. |
| KoelnerPhonetik.CalculateWords | src/lib.rs:62-93 | Two space-free words joined by a space give the first word's code, a space, and the second word's code without its zeros, the leading one included. |
| TestVectors.Rust | src/lib.rs:8-11 | "Rust" codes as "782". |
| TestVectors.Wikipedia | src/lib.rs:103 | "Wikipedia" codes as "3412". |
| TestVectors.Breschnew | src/lib.rs:104 | "Breschnew" codes as "17863". |
| TestVectors.Erika | src/lib.rs:105 | "Erika" codes as "074". |
| TestVectors.Mustermann | src/lib.rs:106 | "Mustermann" codes as "682766". |
| TestVectors.ErikaMustermann | src/lib.rs:107 | "Erika Mustermann" codes as "074 682766". |
| TestVectors.MuellerLuedenscheidt | src/lib.rs:108 | "Müller-Lüdenscheidt" codes as "65752682". |
| TestVectors.HeinzClassen | src/lib.rs:109 | "Heinz Classen" codes as "068 4586". |
| TestVectors.HeinzHyphenClassen | src/lib.rs:110 | "Heinz-Classen" codes as "068586". |
| TestVectors.Acht | src/lib.rs:111 | "Acht" codes as "042". |
| TestVectors.Circus | src/lib.rs:129 | "Circus" codes as "8748". |
| TestVectors.Delphin | src/lib.rs:134 | "Delphin" codes as "2536". |
| TestVectors.Hexe | src/lib.rs:161 | "Hexe" codes as "048". |
| TestVectors.JoJo | src/lib.rs:172 | "Jo-Jo" codes as "0". |
| TestVectors.Kirsche | src/lib.rs:179 | "Kirsche" codes as "478". |
| TestVectors.Empty | src/lib.rs:187 | The empty text codes as the empty text. |
| TestVectors.Mond | src/lib.rs:201 | "Mond" codes as "662". |
| TestVectors.Netz | src/lib.rs:208 | "Netz" codes as "68". |
| TestVectors.Papagei | src/lib.rs:220 | "Papagei" codes as "114". |
| TestVectors.Uhu | src/lib.rs:249 | "Uhu" codes as "0". |
| TestVectors.Xaver | src/lib.rs:263 | "Xaver" codes as "4837". |
| TestVectors.Chinese | src/lib.rs:288 | "Chinese" codes as "468". |
| TestVectors.Pferd | src/lib.rs:300 | "Pferd" codes as "1372". |
| TestVectors.Schaf | src/lib.rs:305 | "Schaf" codes as "843". |
| TestVectors.LongerThanInput | src/lib.rs:47-48 | The one-letter text "X" codes as "48", so the code can be longer than its input. |
| TestVectors.AdjacentDuplicatesSurvive | src/lib.rs:79-94 | The code of "Mond" has two equal neighbours, because the collapse runs before the zeros are pruned. |
| TestVectors.SpacesMerge | src/lib.rs:79-85 | "a  b" (two spaces) and "a - b" both code as "0 1": neighbouring raw spaces collapse into one, also across a character without a code. |
| TestVectors.KelvinSign | src/lib.rs:14 | A c followed by the Kelvin sign codes as "4": lower-casing turns the sign into k, before which a word-initial c is a 4. |

## Left out

- Lowercasing: only A to Z, Ä, Ö, Ü, capital ẞ and the Kelvin sign are
  mapped. Rust's full Unicode `to_lowercase` maps many more characters, but
  almost all of them land outside the rule table. Unlisted characters all
  act alike in the scan: they give no code, and each sets `last` to a
  character other than s, z, c, k or q. The one known difference is
  U+0130 (İ). Rust lower-cases it to i followed by a combining dot, so
  `calculate` gives "0" for it. The model leaves it as it is and gives "".
- The `Peekable` iterator is modelled as the next element of the remaining
  sequence (`Peek`). Rust's UTF-8 `String` is modelled as a sequence of
  characters. The `retval.len() == 0` test in the third loop counts bytes,
  which is the same as testing for an empty output.
- The unit tests are covered only in part: 23 of their vectors are proved.
  The documentation example at src/lib.rs:8-11 is proved as well.
- Code, Classify, Collapse, RemoveZeros, Calculate: these functions carry no
  postconditions. Their properties are in the `Shape`, rule, concatenation
  and reference lemmas listed above.

=== FILE: classifier.dfy ===
/** The first pass of `calculate`: a left-to-right scan over the lower-cased
    text that turns each character into its raw code ("" or one digit, "48"
    for an x, " " for a space). The rule for a character may look one
    character ahead (the next raw input character, which may be a space or a
    hyphen) and back at the scan state: the previous character `last`
    (none at the start of the text and after a space) and the flag `firsts`
    (the previous character was an `s` at the start of a word). */
module Classifier {

  datatype Option<T> = None | Some(value: T)

  /** The state threaded through the scan, as in the source's two locals. */
  datatype ScanState = ScanState(last: Option<char>, firsts: bool)

  /** The state before the first character. */
  const Start := ScanState(None, false)

  /** The characters a raw code can contain: the digits 0 to 8 and the space. */
  predicate IsCodeChar(c: char) {
    ('0' <= c <= '8') || c == ' '
  }

  /** The vowels (with j and y and the umlauts): code 0. */
  predicate IsVowel(c: char) {
    c == 'a' || c == 'e' || c == 'i' || c == 'j' || c == 'o' || c == 'u' || c == 'y'
    || c == 'ä' || c == 'ö' || c == 'ü'
  }

  /** The characters before which a word-initial c reads as k. */
  predicate IsInitialCFollower(c: char) {
    c == 'a' || c == 'h' || c == 'k' || c == 'l' || c == 'o' || c == 'q' || c == 'r' || c == 'u' || c == 'x'
  }

  /** The characters before which a c inside a word reads as k. */
  predicate IsInnerCFollower(c: char) {
    c == 'a' || c == 'h' || c == 'k' || c == 'o' || c == 'q' || c == 'u' || c == 'x'
  }

  /** The characters before which d and t read as s. */
  predicate IsSibilantFollower(c: char) {
    c == 'c' || c == 's' || c == 'z'
  }

  /** The consonants the rule table lists (h aside). */
  predicate IsListedConsonant(c: char) {
    c == 'b' || c == 'p' || c == 'd' || c == 't' || c == 'f' || c == 'v' || c == 'w'
    || c == 'g' || c == 'k' || c == 'q' || c == 'c' || c == 'x' || c == 'l' || c == 'm'
    || c == 'n' || c == 'r' || c == 's' || c == 'z' || c == 'ß'
  }

  /** The characters that contribute something to the raw code; every other
      character (h, a hyphen, a digit, ...) contributes nothing. */
  predicate Emits(c: char) {
    IsVowel(c) || IsListedConsonant(c) || c == ' '
  }

  /** The character ahead is one of those before which a word-initial c reads as k. */
  predicate BeforeInitialCFollower(next: Option<char>) {
    next.Some? && IsInitialCFollower(next.value)
  }

  /** The character ahead is one of those before which an inner c reads as k. */
  predicate BeforeInnerCFollower(next: Option<char>) {
    next.Some? && IsInnerCFollower(next.value)
  }

  /** The character ahead is c, s or z. */
  predicate BeforeSibilant(next: Option<char>) {
    next.Some? && IsSibilantFollower(next.value)
  }

  /** The previous character is c, k or q. */
  predicate AfterCKQ(st: ScanState) {
    st.last == Some('c') || st.last == Some('k') || st.last == Some('q')
  }

  /** The previous character is s or z. */
  predicate AfterSZ(st: ScanState) {
    st.last == Some('s') || st.last == Some('z')
  }

  /** No previous character, or the previous one is a word-initial s. */
  predicate AtWordStart(st: ScanState) {
    st.last == None || st.firsts
  }

  /** The code of one character, one arm of the source's `match` per branch,
      in the source's order: the first arm whose pattern and guard hold wins. */
  function Code(c: char, next: Option<char>, st: ScanState): seq<char> {
    if IsVowel(c) then "0"
    else if c == 'h' then ""
    else if c == 'b' then "1"
    else if c == 'p' && next != Some('h') then "1"
    else if (c == 'd' || c == 't') && next != Some('c') && next != Some('s') && next != Some('z') then "2"
    else if c == 'f' || c == 'v' || c == 'w' then "3"
    else if c == 'p' && next == Some('h') then "3"
    else if c == 'g' || c == 'k' || c == 'q' then "4"
    else if c == 'c' && (st.last == None || st.firsts) && BeforeInitialCFollower(next) then "4"
    else if c == 'c' && st.last != Some('s') && st.last != Some('z') && BeforeInnerCFollower(next) then "4"
    else if c == 'x' && st.last != Some('c') && st.last != Some('k') && st.last != Some('q') then "48"
    else if c == 'l' then "5"
    else if c == 'm' || c == 'n' then "6"
    else if c == 'r' then "7"
    else if c == 's' || c == 'z' || c == 'ß' || c == 'c' || c == 'd' || c == 't' || c == 'x' then "8"
    else if c == ' ' then " "
    else ""
  }

  /** What one character contributes: at most two code characters, nothing
      exactly for h and the unlisted characters, two exactly for an x not
      after c, k or q, and a space exactly for a space. */
  lemma CodeShape(c: char, next: Option<char>, st: ScanState)
    ensures var r := Code(c, next, st);
      && |r| <= 2
      && (forall i :: 0 <= i < |r| ==> IsCodeChar(r[i]))
      && (r == [] <==> !Emits(c))
      && (|r| == 2 <==> c == 'x' && !AfterCKQ(st))
      && (' ' in r <==> c == ' ')
  {
  }

  /** The state after consuming `c`: a space clears `last` (and leaves
      `firsts` as it was); any other character, listed or not, becomes
      `last`, and `firsts` records whether it is an `s` at a word start. */
  function Advance(st: ScanState, c: char): (st': ScanState)
    ensures st'.last == None <==> c == ' '
    ensures c != ' ' ==> st'.last == Some(c)
    ensures c != ' ' ==> (st'.firsts <==> st.last == None && c == 's')
    ensures c == ' ' ==> st'.firsts == st.firsts
  {
    if c == ' ' then ScanState(None, st.firsts)
    else ScanState(Some(c), st.last == None && c == 's')
  }

  /** The next raw character of the remaining input, as `peek` sees it. */
  function Peek(rest: seq<char>): (p: Option<char>)
    ensures p.Some? <==> rest != []
    ensures rest != [] ==> p == Some(rest[0])
  {
    if rest == [] then None else Some(rest[0])
  }

  /** The raw code of `s` scanned from state `st`. */
  function Classify(s: seq<char>, st: ScanState): seq<char>
    decreases |s|
  {
    if s == [] then []
    else Code(s[0], Peek(s[1..]), st) + Classify(s[1..], Advance(st, s[0]))
  }

  /** Each character contributes at most two code characters, the raw code
      holds only code characters, and it is empty exactly when no character
      of the text contributes anything. */
  lemma {:induction false} ClassifyShape(s: seq<char>, st: ScanState)
    ensures |Classify(s, st)| <= 2 * |s|
    ensures forall i :: 0 <= i < |Classify(s, st)| ==> IsCodeChar(Classify(s, st)[i])
    ensures Classify(s, st) == [] <==> forall i :: 0 <= i < |s| ==> !Emits(s[i])
    decreases |s|
  {
    if s != [] {
      ClassifyShape(s[1..], Advance(st, s[0]));
      CodeShape(s[0], Peek(s[1..]), st);
      var head := Code(s[0], Peek(s[1..]), st);
      var tail := Classify(s[1..], Advance(st, s[0]));
      assert Classify(s, st) == head + tail;
      assert forall i :: 0 <= i < |head + tail| ==> (head + tail)[i] == if i < |head| then head[i] else tail[i - |head|];
      assert (forall i :: 0 <= i < |s| ==> !Emits(s[i])) <==>
             !Emits(s[0]) && (forall i :: 0 <= i < |s[1..]| ==> !Emits(s[1..][i]));
    }
  }

  /** The state after scanning all of `s` from `st`. */
  function Scan(s: seq<char>, st: ScanState): ScanState
    decreases |s|
  {
    if s == [] then st else Scan(s[1..], Advance(st, s[0]))
  }

  /** The characters whose rule never consults the character ahead: all but
      p, d, t and c. */
  predicate IgnoresLookahead(c: char) {
    c != 'p' && c != 'd' && c != 't' && c != 'c'
  }

  lemma CodeIgnoresLookahead(c: char, next: Option<char>, next': Option<char>, st: ScanState)
    requires IgnoresLookahead(c)
    ensures Code(c, next, st) == Code(c, next', st)
  {
  }

  /** The scan is a left-to-right pass with one character of lookahead: a
      text splits, after any character whose rule ignores the lookahead,
      into two pieces coded one after the other, the second from the state
      the first leaves behind. */
  lemma {:induction false} ClassifyConcat(a: seq<char>, b: seq<char>, st: ScanState)
    requires a == [] || IgnoresLookahead(a[|a| - 1])
    ensures Classify(a + b, st) == Classify(a, st) + Classify(b, Scan(a, st))
    decreases |a|
  {
    if a == [] {
      assert a + b == b;
    } else {
      var st' := Advance(st, a[0]);
      assert (a + b)[0] == a[0];
      assert (a + b)[1..] == a[1..] + b;
      if |a| > 1 {
        assert a[1..][|a[1..]| - 1] == a[|a| - 1];
      }
      ClassifyConcat(a[1..], b, st');
      var head := Code(a[0], Peek((a + b)[1..]), st);
      assert head == Code(a[0], Peek(a[1..]), st) by {
        if |a| == 1 {
          CodeIgnoresLookahead(a[0], Peek((a + b)[1..]), Peek(a[1..]), st);
        }
      }
      var x, y := Classify(a[1..], st'), Classify(b, Scan(a, st));
      assert Classify(a + b, st) == head + (x + y);
      assert head + (x + y) == (head + x) + y;
    }
  }

  /** The raw code holds a space exactly when the text does: only a space
      codes as a space. */
  lemma {:induction false} ClassifySpaces(s: seq<char>, st: ScanState)
    ensures ' ' in Classify(s, st) <==> ' ' in s
    decreases |s|
  {
    if s != [] {
      ClassifySpaces(s[1..], Advance(st, s[0]));
      CodeShape(s[0], Peek(s[1..]), st);
      var head := Code(s[0], Peek(s[1..]), st);
      var tail := Classify(s[1..], Advance(st, s[0]));
      assert Classify(s, st) == head + tail;
      assert ' ' in head + tail <==> ' ' in head || ' ' in tail;
      assert s == [s[0]] + s[1..];
      assert ' ' in s <==> s[0] == ' ' || ' ' in s[1..];
    }
  }

  /** A vowel (with j, y and the umlauts) always gives 0; h and every
      unlisted character give nothing. */
  lemma VowelAndSilentRules(c: char, next: Option<char>, st: ScanState)
    ensures IsVowel(c) ==> Code(c, next, st) == "0"
    ensures c == 'h' || !Emits(c) ==> Code(c, next, st) == ""
  {
  }

  /** p gives 3 exactly when the next character is an h, otherwise 1. */
  lemma PRule(next: Option<char>, st: ScanState)
    ensures Code('p', next, st) == "3" <==> next == Some('h')
    ensures Code('p', next, st) == "1" <==> next != Some('h')
  {
  }

  /** d and t give 8 exactly when the next character is c, s or z, otherwise 2. */
  lemma DTRule(c: char, next: Option<char>, st: ScanState)
    requires c == 'd' || c == 't'
    ensures Code(c, next, st) == "8" <==> BeforeSibilant(next)
    ensures Code(c, next, st) == "2" <==> !BeforeSibilant(next)
  {
  }

  /** x gives 8 exactly when the previous character is c, k or q, otherwise 48. */
  lemma XRule(next: Option<char>, st: ScanState)
    ensures Code('x', next, st) == "8" <==> AfterCKQ(st)
    ensures Code('x', next, st) == "48" <==> !AfterCKQ(st)
  {
  }

  /** c gives 4 exactly when one of the two c-as-k rules holds: at a word
      start (no previous character, or right after a word-initial s) before
      one of a h k l o q r u x, or not after s or z before one of a h k o q
      u x; otherwise it gives 8. */
  lemma CRule(next: Option<char>, st: ScanState)
    ensures Code('c', next, st) == "4" <==>
              (AtWordStart(st) && BeforeInitialCFollower(next))
              || (!AfterSZ(st) && BeforeInnerCFollower(next))
    ensures Code('c', next, st) == "8" <==>
              !((AtWordStart(st) && BeforeInitialCFollower(next))
                || (!AfterSZ(st) && BeforeInnerCFollower(next)))
  {
  }

  /** The letters whose code does not depend on context. */
  lemma FixedRules(c: char, next: Option<char>, st: ScanState)
    ensures c == 'b' ==> Code(c, next, st) == "1"
    ensures c == 'f' || c == 'v' || c == 'w' ==> Code(c, next, st) == "3"
    ensures c == 'g' || c == 'k' || c == 'q' ==> Code(c, next, st) == "4"
    ensures c == 'l' ==> Code(c, next, st) == "5"
    ensures c == 'm' || c == 'n' ==> Code(c, next, st) == "6"
    ensures c == 'r' ==> Code(c, next, st) == "7"
    ensures c == 's' || c == 'z' || c == 'ß' ==> Code(c, next, st) == "8"
    ensures c == ' ' ==> Code(c, next, st) == " "
  {
  }

  /** With no previous character the `firsts` flag changes no code. */
  lemma CodeAtWordStart(c: char, next: Option<char>, f: bool)
    ensures Code(c, next, ScanState(None, f)) == Code(c, next, Start)
  {
  }

  /** A space ahead looks the same to every rule as the end of the text. */
  lemma PeekSpaceIsEnd(c: char, st: ScanState)
    ensures Code(c, Some(' '), st) == Code(c, None, st)
  {
  }

  /** At a word start the `firsts` flag is irrelevant: a text scanned from
      any state without a previous character codes as from the very start. */
  lemma {:induction false} WordStartIgnoresFirsts(v: seq<char>, f: bool)
    ensures Classify(v, ScanState(None, f)) == Classify(v, Start)
    decreases |v|
  {
    if v != [] {
      if v[0] == ' ' {
        WordStartIgnoresFirsts(v[1..], f);
        WordStartIgnoresFirsts(v[1..], false);
      } else {
        assert Advance(ScanState(None, f), v[0]) == Advance(Start, v[0]);
      }
      CodeAtWordStart(v[0], Peek(v[1..]), f);
    }
  }

  /** A space separates two independently coded words: the raw code of
      `u + " " + v` is the raw code of `u`, a space, and the raw code of `v`
      scanned from the start state. */
  lemma {:induction false} ClassifyWords(u: seq<char>, v: seq<char>, st: ScanState)
    ensures Classify(u + " " + v, st) == Classify(u, st) + " " + Classify(v, Start)
    decreases |u|
  {
    var s := u + " " + v;
    if u == [] {
      assert s == [' '] + v;
      assert s[1..] == v;
      WordStartIgnoresFirsts(v, st.firsts);
      assert Classify(s, st) == " " + Classify(v, ScanState(None, st.firsts));
    } else {
      var st' := Advance(st, u[0]);
      assert s[0] == u[0];
      assert s[1..] == u[1..] + " " + v;
      ClassifyWords(u[1..], v, st');
      var head := Code(u[0], Peek(s[1..]), st);
      assert head == Code(u[0], Peek(u[1..]), st) by {
        if |u| == 1 {
          PeekSpaceIsEnd(u[0], st);
        }
      }
      var x, y := Classify(u[1..], st'), Classify(v, Start);
      assert Classify(s, st) == head + (x + " " + y);
      assert head + (x + " " + y) == (head + x) + " " + y;
      assert Classify(u, st) == head + x;
    }
  }
}

=== FILE: collapser.dfy ===
/** The second pass of `calculate`: a character of the raw code is kept only
    when the raw character after it differs from it (the last character is
    always kept). Each maximal run of equal characters thus shrinks to one
    copy, its last. */
module Collapser {

  /** No two neighbours are equal. */
  ghost predicate NoAdjacentDup(s: seq<char>) {
    forall i :: 0 <= i < |s| - 1 ==> s[i] != s[i + 1]
  }

  /** `a` is `b` with some elements left out. */
  predicate IsSubsequence(a: seq<char>, b: seq<char>)
    decreases |b|
  {
    if a == [] then true
    else if b == [] then false
    else if a[0] == b[0] then IsSubsequence(a[1..], b[1..])
    else IsSubsequence(a, b[1..])
  }

  function Collapse(s: seq<char>): seq<char>
    decreases |s|
  {
    if |s| <= 1 then s
    else (if s[0] != s[1] then [s[0]] else []) + Collapse(s[1..])
  }

  /** Collapsing never lengthens, empties only the empty text, keeps the
      first and the last character, and keeps the same set of characters. */
  lemma {:induction false} CollapseShape(s: seq<char>)
    ensures |Collapse(s)| <= |s|
    ensures Collapse(s) == [] <==> s == []
    ensures s != [] ==> Collapse(s)[0] == s[0] && Collapse(s)[|Collapse(s)| - 1] == s[|s| - 1]
    ensures forall x :: x in Collapse(s) <==> x in s
    decreases |s|
  {
    if |s| > 1 {
      CollapseShape(s[1..]);
      var keep: seq<char> := if s[0] != s[1] then [s[0]] else [];
      var t := Collapse(s[1..]);
      assert Collapse(s) == keep + t;
      assert s == [s[0]] + s[1..];
      assert forall x :: x in keep + t <==> x in keep || x in t;
    }
  }

  /** No two neighbours of the collapsed text are equal. */
  lemma {:induction false} CollapseNoAdjacentDup(s: seq<char>)
    ensures NoAdjacentDup(Collapse(s))
    decreases |s|
  {
    if |s| > 1 {
      CollapseNoAdjacentDup(s[1..]);
      CollapseShape(s[1..]);
      var t := Collapse(s[1..]);
      if s[0] != s[1] {
        var r := [s[0]] + t;
        assert Collapse(s) == r;
        forall i | 0 <= i < |r| - 1
          ensures r[i] != r[i + 1]
        {
          if i > 0 {
            assert r[i] == t[i - 1] && r[i + 1] == t[i];
          }
        }
      }
    }
  }

  /** One step of the scan: the head is kept when the next element differs
      from it or there is none. */
  lemma CollapseStep(s: seq<char>)
    requires s != []
    ensures Collapse(s) ==
              (if |s| == 1 || s[0] != s[1] then [s[0]] else []) + Collapse(s[1..])
  {
    if |s| == 1 {
      assert s[1..] == [];
    }
  }

  /** Reference definition scanning the other way: keep an element when the
      element BEFORE it differs, i.e. keep the first copy of each run. */
  function Dedup(s: seq<char>): seq<char>
    decreases |s|
  {
    if |s| <= 1 then s
    else if s[|s| - 2] == s[|s| - 1] then Dedup(s[..|s| - 1])
    else Dedup(s[..|s| - 1]) + [s[|s| - 1]]
  }

  /** Appending one element to the collapsed form. */
  lemma {:induction false} CollapseSnoc(s: seq<char>, x: char)
    requires s != []
    ensures Collapse(s + [x]) ==
              if s[|s| - 1] == x then Collapse(s) else Collapse(s) + [x]
    decreases |s|
  {
    var t := s + [x];
    if |s| == 1 {
      assert t == [s[0], x];
      assert t[1..] == [x];
    } else {
      assert t[0] == s[0] && t[1] == s[1];
      assert t[1..] == s[1..] + [x];
      var pre: seq<char> := if s[0] != s[1] then [s[0]] else [];
      CollapseSnoc(s[1..], x);
      assert s[1..][|s[1..]| - 1] == s[|s| - 1];
      assert Collapse(t) == pre + Collapse(s[1..] + [x]);
      assert Collapse(s) == pre + Collapse(s[1..]);
      if s[|s| - 1] != x {
        assert pre + (Collapse(s[1..]) + [x]) == (pre + Collapse(s[1..])) + [x];
      }
    }
  }

  /** Collapsing keeps the last copy of each run and the reference keeps the
      first: since the copies are equal, the two agree. */
  lemma {:induction false} CollapseIsDedup(s: seq<char>)
    ensures Collapse(s) == Dedup(s)
    decreases |s|
  {
    if |s| > 1 {
      var p := s[..|s| - 1];
      assert s == p + [s[|s| - 1]];
      CollapseIsDedup(p);
      CollapseSnoc(p, s[|s| - 1]);
    }
  }

  /** A text without neighbouring duplicates is left as it is. */
  lemma {:induction false} CollapseFixpoint(s: seq<char>)
    requires NoAdjacentDup(s)
    ensures Collapse(s) == s
    decreases |s|
  {
    if |s| > 1 {
      assert s[0] != s[1];
      assert NoAdjacentDup(s[1..]) by {
        forall i | 0 <= i < |s[1..]| - 1
          ensures s[1..][i] != s[1..][i + 1]
        {
          assert s[1..][i] == s[i + 1] && s[1..][i + 1] == s[i + 2];
        }
      }
      CollapseFixpoint(s[1..]);
      assert s == [s[0]] + s[1..];
    }
  }

  /** Collapsing twice is collapsing once. */
  lemma CollapseIdempotent(s: seq<char>)
    ensures Collapse(Collapse(s)) == Collapse(s)
  {
    CollapseNoAdjacentDup(s);
    CollapseFixpoint(Collapse(s));
  }

  /** The collapsed text is the raw text with elements left out. */
  lemma {:induction false} CollapseSubsequence(s: seq<char>)
    ensures IsSubsequence(Collapse(s), s)
    decreases |s|
  {
    if |s| > 1 {
      CollapseSubsequence(s[1..]);
      if s[0] != s[1] {
        var r := Collapse(s);
        assert r[0] == s[0] && r[1..] == Collapse(s[1..]);
      } else {
        var r := Collapse(s[1..]);
        CollapseShape(s[1..]);
        assert Collapse(s) == r && r != [] && r[0] == s[0];
        SubsequenceDropHead(r, s[1..]);
        assert IsSubsequence(r[1..], s[1..]);
      }
    } else {
      SubsequenceRefl(s);
    }
  }

  lemma {:induction false} SubsequenceRefl(s: seq<char>)
    ensures IsSubsequence(s, s)
    decreases |s|
  {
    if s != [] {
      SubsequenceRefl(s[1..]);
    }
  }

  /** A subsequence of the tail is a subsequence of the whole. */
  lemma {:induction false} SubsequenceOfTail(a: seq<char>, b: seq<char>)
    requires b != [] && IsSubsequence(a, b[1..])
    ensures IsSubsequence(a, b)
    decreases |b|, 0
  {
    if a != [] && a[0] == b[0] {
      SubsequenceDropHead(a, b[1..]);
    }
  }

  /** Dropping the head of a subsequence keeps it a subsequence. */
  lemma {:induction false} SubsequenceDropHead(a: seq<char>, b: seq<char>)
    requires a != [] && IsSubsequence(a, b)
    ensures IsSubsequence(a[1..], b)
    decreases |b|, 1
  {
    if a[1..] != [] {
      if a[0] == b[0] {
        SubsequenceOfTail(a[1..], b);
      } else {
        SubsequenceDropHead(a, b[1..]);
        SubsequenceOfTail(a[1..], b);
      }
    }
  }

  /** Two pieces that do not meet in equal elements collapse separately. */
  lemma {:induction false} CollapseConcat(a: seq<char>, b: seq<char>)
    requires a == [] || b == [] || a[|a| - 1] != b[0]
    ensures Collapse(a + b) == Collapse(a) + Collapse(b)
    decreases |a|
  {
    if a == [] {
      assert a + b == b;
    } else if b == [] {
      assert a + b == a;
    } else if |a| == 1 {
      assert (a + b)[1..] == b;
      assert (a + b)[0] != (a + b)[1];
    } else {
      assert (a + b)[1..] == a[1..] + b;
      CollapseConcat(a[1..], b);
      assert a[1..][|a[1..]| - 1] == a[|a| - 1];
    }
  }
}

=== FILE: lowercase.dfy ===
/** The lower-casing step that `calculate` applies to its input before any
    rule is tried. Only the letters the rule table can see in upper case are
    mapped: the ASCII capitals, the umlauts Ä, Ö, Ü, the capital sharp s and
    the Kelvin sign.
    Every other character is left as it is. */
module Lowercasing {

  /** A capital that lower-casing changes into a letter the rule table can
      see: the ASCII capitals, the umlauts, the capital sharp s and the
      Kelvin sign, whose lower-case form is the ASCII k. */
  predicate IsUpper(c: char) {
    ('A' <= c <= 'Z') || c == 'Ä' || c == 'Ö' || c == 'Ü' || c == 'ẞ' || c == '\U{212A}'
  }

  /** A lower-case letter that has a capital in `IsUpper`. */
  predicate IsLowerLetter(c: char) {
    ('a' <= c <= 'z') || c == 'ä' || c == 'ö' || c == 'ü' || c == 'ß'
  }

  /** The lower-case form of one character. An ASCII capital or an umlaut
      becomes the letter that upper-cases back to it; the capital sharp s
      becomes ß and the Kelvin sign becomes k. */
  function LowerChar(c: char): (d: char)
    ensures !IsUpper(d)
    ensures !IsUpper(c) ==> d == c
    ensures IsUpper(c) ==> IsLowerLetter(d)
    ensures IsUpper(c) && c != 'ẞ' && c != '\U{212A}' ==> d != 'ß' && UpperChar(d) == c
    ensures c == 'ẞ' ==> d == 'ß'
    ensures c == '\U{212A}' ==> d == 'k'
    ensures d == ' ' <==> c == ' '
  {
    if 'A' <= c <= 'Z' then (c as int + 32) as char
    else if c == 'Ä' then 'ä'
    else if c == 'Ö' then 'ö'
    else if c == 'Ü' then 'ü'
    else if c == 'ẞ' then 'ß'
    else if c == '\U{212A}' then 'k'
    else c
  }

  function Lowercase(s: seq<char>): (t: seq<char>)
    ensures |t| == |s|
    ensures forall i :: 0 <= i < |s| ==> t[i] == LowerChar(s[i])
    ensures forall i :: 0 <= i < |t| ==> !IsUpper(t[i])
  {
    seq(|s|, i requires 0 <= i < |s| => LowerChar(s[i]))
  }

  /** Lower-casing twice is lower-casing once. */
  lemma LowercaseIdempotent(s: seq<char>)
    ensures Lowercase(Lowercase(s)) == Lowercase(s)
  {
  }

  /** Lower-casing works character by character, so it distributes over
      concatenation. */
  lemma LowercaseConcat(a: seq<char>, b: seq<char>)
    ensures Lowercase(a + b) == Lowercase(a) + Lowercase(b)
  {
  }

  /** The inverse direction, used only to state case-insensitivity: the
      lower-case letters of `IsLowerLetter` other than ß are mapped to their
      capitals. (ß is left alone: its upper-case form is two letters.) */
  function UpperChar(c: char): (d: char)
    ensures IsLowerLetter(c) && c != 'ß' ==> IsUpper(d)
    ensures !IsLowerLetter(c) || c == 'ß' ==> d == c
  {
    if 'a' <= c <= 'z' then (c as int - 32) as char
    else if c == 'ä' then 'Ä'
    else if c == 'ö' then 'Ö'
    else if c == 'ü' then 'Ü'
    else c
  }

  function Uppercase(s: seq<char>): (t: seq<char>)
    ensures |t| == |s|
    ensures forall i :: 0 <= i < |s| ==> t[i] == UpperChar(s[i])
  {
    seq(|s|, i requires 0 <= i < |s| => UpperChar(s[i]))
  }

  /** Upper-casing a text first does not change its lower-cased form. */
  lemma LowercaseOfUppercase(s: seq<char>)
    ensures Lowercase(Uppercase(s)) == Lowercase(s)
  {
  }
}

=== FILE: phonetik.dfy ===
/** `calculate`, the Kölner Phonetik (Cologne phonetics) code of a text:
    lower-case it, classify each character, collapse runs of equal raw
    characters, and prune the zeros. */
module KoelnerPhonetik {

  import opened Lowercasing
  import opened Classifier
  import opened Collapser
  import opened Pruner

  /** The raw code of a text: the classifier's output on its lower-cased form. */
  function RawCode(word: seq<char>): seq<char> {
    Classify(Lowercase(word), Start)
  }

  /** `calculate`: the three passes in sequence. */
  function Calculate(word: seq<char>): seq<char> {
    Prune(Collapse(RawCode(word)))
  }

  /** The code holds only digits 0 to 8 and spaces, a '0' only in front,
      at most two characters per input character; it is empty exactly when
      no character of the lower-cased input contributes to the raw code, and
      otherwise starts with the first raw code character. */
  lemma CalculateShape(word: seq<char>)
    ensures var r := Calculate(word);
      && (forall i :: 0 <= i < |r| ==> IsCodeChar(r[i]))
      && (forall i :: 0 < i < |r| ==> r[i] != '0')
      && |r| <= 2 * |word|
      && (r == [] <==> forall i :: 0 <= i < |word| ==> !Emits(LowerChar(word[i])))
      && (r != [] ==> RawCode(word) != [] && r[0] == RawCode(word)[0])
  {
    var raw := RawCode(word);
    var collapsed := Collapse(raw);
    ClassifyShape(Lowercase(word), Start);
    CollapseShape(raw);
    PruneZeroOnlyAtHead(collapsed);
    PruneSubset(collapsed);
    assert forall c :: c in collapsed ==> c in raw;
    assert forall c :: c in raw ==> IsCodeChar(c);
  }

  /** The source's first loop: one scan with the `last` and `firsts` locals
      and a one-character peek. */
  method ClassifyLoop(w: seq<char>) returns (raw: seq<char>)
    ensures raw == Classify(w, Start)
  {
    raw := [];
    var last: Option<char> := None;
    var firsts := false;
    var i := 0;
    while i < |w|
      invariant 0 <= i <= |w|
      invariant raw + Classify(w[i..], ScanState(last, firsts)) == Classify(w, Start)
    {
      var c := w[i];
      var next := if i + 1 < |w| then Some(w[i + 1]) else None;
      var st := ScanState(last, firsts);
      var code := Code(c, next, st);
      assert w[i..][0] == c && w[i..][1..] == w[i + 1..];
      assert Peek(w[i + 1..]) == next;
      ghost var rest := Classify(w[i + 1..], Advance(st, c));
      assert Classify(w[i..], st) == code + rest;
      if c == ' ' {
        last := None;
      } else {
        firsts := last == None && c == 's';
        last := Some(c);
      }
      assert ScanState(last, firsts) == Advance(st, c);
      assert raw + (code + rest) == (raw + code) + rest;
      raw := raw + code;
      i := i + 1;
    }
    assert w[i..] == [];
  }

  /** The source's second loop: keep a character when the next one differs. */
  method CollapseLoop(raw: seq<char>) returns (collapsed: seq<char>)
    ensures collapsed == Collapse(raw)
  {
    collapsed := [];
    var j := 0;
    assert raw[j..] == raw;
    while j < |raw|
      invariant 0 <= j <= |raw|
      invariant collapsed + Collapse(raw[j..]) == Collapse(raw)
    {
      assert raw[j..][1..] == raw[j + 1..];
      CollapseStep(raw[j..]);
      ghost var keep: seq<char> := if j + 1 == |raw| || raw[j + 1] != raw[j] then [raw[j]] else [];
      ghost var rest := Collapse(raw[j + 1..]);
      assert Collapse(raw[j..]) == keep + rest;
      assert collapsed + (keep + rest) == (collapsed + keep) + rest;
      if j + 1 == |raw| || raw[j + 1] != raw[j] {
        collapsed := collapsed + [raw[j]];
      } else {
        assert collapsed + keep == collapsed;
      }
      assert collapsed + rest == Collapse(raw);
      j := j + 1;
    }
    assert raw[j..] == [];
  }

  /** The source's third loop: drop a zero once the output is non-empty. */
  method PruneLoop(collapsed: seq<char>) returns (r: seq<char>)
    ensures r == Prune(collapsed)
  {
    r := [];
    var k := 0;
    while k < |collapsed|
      invariant 0 <= k <= |collapsed|
      invariant PruneInto(r, collapsed[k..]) == Prune(collapsed)
    {
      var c := collapsed[k];
      assert collapsed[k..][1..] == collapsed[k + 1..];
      if c == '0' && |r| == 0 {
        r := r + [c];
      } else if c != '0' {
        r := r + [c];
      }
      k := k + 1;
    }
    assert collapsed[k..] == [];
  }

  /** `calculate` as the source writes it: the three loops in sequence. */
  method CalculateLoop(word: seq<char>) returns (r: seq<char>)
    ensures r == Calculate(word)
  {
    var raw := ClassifyLoop(Lowercase(word));
    var collapsed := CollapseLoop(raw);
    r := PruneLoop(collapsed);
  }

  /** The code depends only on the lower-cased text: upper-casing or
      lower-casing the input first changes nothing. */
  lemma CaseInsensitive(word: seq<char>)
    ensures Calculate(Lowercase(word)) == Calculate(word)
    ensures Calculate(Uppercase(word)) == Calculate(word)
  {
    LowercaseIdempotent(word);
    LowercaseOfUppercase(word);
  }

  /** Two words joined by a space are coded independently: the code of the
      second follows a space, except that it loses all its zeros, its
      leading one included, since the output is no longer empty there. */
  lemma CalculateWords(u: seq<char>, v: seq<char>)
    requires ' ' !in u && ' ' !in v
    ensures Calculate(u + " " + v) == Calculate(u) + " " + RemoveZeros(Calculate(v))
  {
    var lu, lv := Lowercase(u), Lowercase(v);
    LowercaseConcat(u + " ", v);
    LowercaseConcat(u, " ");
    assert Lowercase(" ") == " ";
    assert Lowercase(u + " " + v) == lu + " " + lv;
    ClassifyWords(lu, lv, Start);
    var a, b := RawCode(u), RawCode(v);
    assert RawCode(u + " " + v) == a + " " + b;
    assert ' ' !in lu;
    assert ' ' !in lv;
    ClassifySpaces(lu, Start);
    ClassifySpaces(lv, Start);
    assert a == [] || a[|a| - 1] != ' ' by {
      if a != [] {
        assert a[|a| - 1] in a;
      }
    }
    assert b == [] || b[0] != ' ' by {
      if b != [] {
        assert b[0] in b;
      }
    }
    CollapseConcat(a, " ");
    CollapseConcat(a + " ", b);
    assert Collapse(a + " " + b) == Collapse(a) + " " + Collapse(b);
    PruneAcrossSpace(Collapse(a), Collapse(b));
    RemoveZerosOfPrune(Collapse(b));
  }
}

=== FILE: pruner.dfy ===
/** The third pass of `calculate`: every '0' is dropped unless the output
    built so far is still empty. The first character of the collapsed code
    therefore always survives, and after it no '0' does, whether it follows
    a digit or a space. */
module Pruner {

  /** The text with every '0' taken out. */
  function RemoveZeros(s: seq<char>): seq<char>
    decreases |s|
  {
    if s == [] then []
    else (if s[0] == '0' then [] else [s[0]]) + RemoveZeros(s[1..])
  }

  /** Taking zeros out never lengthens, leaves no '0', and leaves a text
      without zeros as it is. */
  lemma {:induction false} RemoveZerosShape(s: seq<char>)
    ensures |RemoveZeros(s)| <= |s|
    ensures forall i :: 0 <= i < |RemoveZeros(s)| ==> RemoveZeros(s)[i] != '0'
    ensures '0' !in s ==> RemoveZeros(s) == s
    decreases |s|
  {
    if s != [] {
      RemoveZerosShape(s[1..]);
      var keep: seq<char> := if s[0] == '0' then [] else [s[0]];
      var t := RemoveZeros(s[1..]);
      assert RemoveZeros(s) == keep + t;
      assert forall i :: 0 <= i < |keep + t| ==> (keep + t)[i] == if i < |keep| then keep[i] else t[i - |keep|];
      assert s == [s[0]] + s[1..];
    }
  }

  /** Taking zeros out loses nothing else: a character is in the result
      exactly when it is in the text and is not '0'. */
  lemma {:induction false} RemoveZerosContents(s: seq<char>, c: char)
    ensures c in RemoveZeros(s) <==> c in s && c != '0'
    decreases |s|
  {
    if s != [] {
      RemoveZerosContents(s[1..], c);
      assert s == [s[0]] + s[1..];
    }
  }

  /** Pruning only removes: every character of the result is in the text. */
  lemma PruneSubset(s: seq<char>)
    ensures forall c :: c in Prune(s) ==> c in s
  {
    forall c | c in Prune(s)
      ensures c in s
    {
      if s != [] && c != s[0] {
        assert c in RemoveZeros(s[1..]);
        RemoveZerosContents(s[1..], c);
      }
    }
  }

  /** The scan of the source's third loop, with `acc` the output so far. */
  function PruneInto(acc: seq<char>, s: seq<char>): (r: seq<char>)
    ensures acc != [] ==> r == acc + RemoveZeros(s)
    ensures acc == [] && s != [] ==> r == [s[0]] + RemoveZeros(s[1..])
    ensures acc == [] && s == [] ==> r == []
    decreases |s|
  {
    if s == [] then acc
    else
      var keep: seq<char> := if s[0] == '0' then [] else [s[0]];
      assert RemoveZeros(s) == keep + RemoveZeros(s[1..]);
      assert (acc + keep) + RemoveZeros(s[1..]) == acc + (keep + RemoveZeros(s[1..]));
      if s[0] == '0' && |acc| == 0 then PruneInto(acc + [s[0]], s[1..])
      else if s[0] != '0' then PruneInto(acc + [s[0]], s[1..])
      else PruneInto(acc, s[1..])
  }

  function Prune(s: seq<char>): (r: seq<char>)
    ensures s == [] ==> r == []
    ensures s != [] ==> r == [s[0]] + RemoveZeros(s[1..])
  {
    PruneInto([], s)
  }

  /** After pruning, '0' can only be the first character. */
  lemma PruneZeroOnlyAtHead(s: seq<char>)
    ensures forall i :: 0 < i < |Prune(s)| ==> Prune(s)[i] != '0'
    ensures |Prune(s)| <= |s|
  {
    if s != [] {
      var z := RemoveZeros(s[1..]);
      RemoveZerosShape(s[1..]);
      assert forall i :: 0 < i < |Prune(s)| ==> Prune(s)[i] == z[i - 1];
    }
  }

  /** Taking zeros out works piece by piece. */
  lemma {:induction false} RemoveZerosConcat(a: seq<char>, b: seq<char>)
    ensures RemoveZeros(a + b) == RemoveZeros(a) + RemoveZeros(b)
    decreases |a|
  {
    if a == [] {
      assert a + b == b;
    } else {
      assert (a + b)[0] == a[0];
      assert (a + b)[1..] == a[1..] + b;
      RemoveZerosConcat(a[1..], b);
    }
  }

  /** Taking zeros out twice is taking them out once. */
  lemma RemoveZerosIdempotent(s: seq<char>)
    ensures RemoveZeros(RemoveZeros(s)) == RemoveZeros(s)
  {
    RemoveZerosContents(s, '0');
    RemoveZerosShape(RemoveZeros(s));
  }

  /** Pruning twice is pruning once. */
  lemma PruneIdempotent(s: seq<char>)
    ensures Prune(Prune(s)) == Prune(s)
  {
    if s != [] {
      var p := Prune(s);
      assert p[0] == s[0] && p[1..] == RemoveZeros(s[1..]);
      RemoveZerosIdempotent(s[1..]);
    }
  }

  /** Pruning and taking all zeros out agree after the first character. */
  lemma RemoveZerosOfPrune(s: seq<char>)
    ensures RemoveZeros(Prune(s)) == RemoveZeros(s)
  {
    if s != [] {
      assert s == [s[0]] + s[1..];
      RemoveZerosConcat([s[0]], s[1..]);
      RemoveZerosConcat([s[0]], RemoveZeros(s[1..]));
      RemoveZerosIdempotent(s[1..]);
    }
  }

  /** A '0' after a space is dropped like any other: the text after a space
      loses all its zeros, whatever came before. */
  lemma PruneAcrossSpace(x: seq<char>, y: seq<char>)
    ensures Prune(x + " " + y) == Prune(x) + " " + RemoveZeros(y)
  {
    var s := x + " " + y;
    if x == [] {
      assert s == " " + y;
      assert s[0] == ' ' && s[1..] == y;
    } else {
      assert s[0] == x[0];
      assert s[1..] == (x[1..] + " ") + y;
      RemoveZerosConcat(x[1..] + " ", y);
      RemoveZerosConcat(x[1..], " ");
      assert RemoveZeros(" ") == " ";
      var z, w := RemoveZeros(x[1..]), RemoveZeros(y);
      assert Prune(s) == [x[0]] + ((z + " ") + w);
      assert Prune(x) == [x[0]] + z;
      assert [x[0]] + ((z + " ") + w) == ([x[0]] + z) + " " + w;
    }
  }
}

=== FILE: vectors.dfy ===
/** Examples from the crate's documentation and unit tests, each proved as
    `Calculate(text) == code`. The verifier evaluates a recursive function on
    a literal only a bounded number of steps deep, and several evaluations
    in one proof obligation add up, so each example is proved one pass at a
    time (`...Lowered`, `...Raw`, `...Collapsed`, `...Pruned`). A pass over
    more than six characters is split into pieces of at most six. Each piece
    is evaluated in its own lemma, and `ClassifyConcat`, `CollapseConcat` or
    `RemoveZerosConcat` joins the pieces in a lemma whose parameters are
    fixed by `requires a == "..."`: joining them on the literals themselves
    costs far more. The piece lemmas therefore look alike by design. */
module TestVectors {
  import opened Lowercasing
  import opened Classifier
  import opened Collapser
  import opened Pruner
  import opened KoelnerPhonetik

  /** The example of the documentation comment (src/lib.rs:8-11) */
  lemma Rust()
    ensures Calculate("Rust") == "782"
  {
    RustLowered();
    RustRaw();
    RustCollapsed();
    RustPruned();
  }

  lemma RustLowered() ensures Lowercase("Rust") == "rust" {}
  lemma RustRaw() ensures Classify("rust", Start) == "7082" {}
  lemma RustCollapsed() ensures Collapse("7082") == "7082" {}
  lemma RustPruned() ensures Prune("7082") == "782" {}

  /** Vowels code 0 and are pruned after the first position; p before a vowel is 1 (src/lib.rs:103) */
  lemma Wikipedia()
    ensures Calculate("Wikipedia") == "3412"
  {
    WikipediaLowered();
    WikipediaRaw();
    WikipediaCollapsed();
    WikipediaPruned();
  }

  lemma WikipediaLowered() ensures Lowercase("Wikipedia") == "wikipedia" {}
  lemma WikipediaRaw() ensures Classify("wikipedia", Start) == "304010200" {
    assert "wikipedia" == "wikipe" + "dia";
    WikipediaRawPieces("wikipe", "dia");
  }
  lemma WikipediaRawPieces(a: seq<char>, b: seq<char>)
    requires a == "wikipe" && b == "dia"
    ensures Classify(a + b, Start) == "304010200"
  {
    WikipediaRaw0(a); WikipediaRaw1(b);
    ClassifyConcat(a, b, Start);
  }
  lemma WikipediaRaw0(a: seq<char>)
    requires a == "wikipe"
    ensures Classify(a, Start) == "304010"
    ensures Scan(a, Start) == ScanState(Some('e'), false)
  {
    assert Classify("wikipe", Start) == "304010";
    assert Scan("wikipe", Start) == ScanState(Some('e'), false);
  }
  lemma WikipediaRaw1(b: seq<char>)
    requires b == "dia"
    ensures Classify(b, ScanState(Some('e'), false)) == "200"
  {
    assert Classify("dia", ScanState(Some('e'), false)) == "200";
  }
  lemma WikipediaCollapsed() ensures Collapse("304010200") == "30401020" {
    assert "304010200" == "304010" + "200";
    WikipediaCollapsedPieces("304010", "200");
  }
  lemma WikipediaCollapsedPieces(a: seq<char>, b: seq<char>)
    requires a == "304010" && b == "200"
    ensures Collapse(a + b) == "30401020"
  {
    WikipediaCollapsed0(a); WikipediaCollapsed1(b);
    CollapseConcat(a, b);
  }
  lemma WikipediaCollapsed0(a: seq<char>) requires a == "304010" ensures Collapse(a) == "304010" {
    assert Collapse("304010") == "304010";
  }
  lemma WikipediaCollapsed1(b: seq<char>) requires b == "200" ensures Collapse(b) == "20" {
    assert Collapse("200") == "20";
  }
  lemma WikipediaPruned() ensures Prune("30401020") == "3412" {
    assert "30401020" == "3" + ("040102" + "0");
    WikipediaPrunedPieces("040102", "0");
  }
  lemma WikipediaPrunedPieces(a: seq<char>, b: seq<char>)
    requires a == "040102" && b == "0"
    ensures Prune("3" + (a + b)) == "3412"
  {
    WikipediaPruned0(a); WikipediaPruned1(b);
    RemoveZerosConcat(a, b);
  }
  lemma WikipediaPruned0(a: seq<char>) requires a == "040102" ensures RemoveZeros(a) == "412" {
    assert RemoveZeros("040102") == "412";
  }
  lemma WikipediaPruned1(b: seq<char>) requires b == "0" ensures RemoveZeros(b) == "" {
    assert RemoveZeros("0") == "";
  }

  /** A c after s codes 8, and so does the s before it; the two 8s collapse (src/lib.rs:104) */
  lemma Breschnew()
    ensures Calculate("Breschnew") == "17863"
  {
    BreschnewLowered();
    BreschnewRaw();
    BreschnewCollapsed();
    BreschnewPruned();
  }

  lemma BreschnewLowered() ensures Lowercase("Breschnew") == "breschnew" {}
  lemma BreschnewRaw() ensures Classify("breschnew", Start) == "17088603" {
    assert "breschnew" == "bresch" + "new";
    BreschnewRawPieces("bresch", "new");
  }
  lemma BreschnewRawPieces(a: seq<char>, b: seq<char>)
    requires a == "bresch" && b == "new"
    ensures Classify(a + b, Start) == "17088603"
  {
    BreschnewRaw0(a); BreschnewRaw1(b);
    ClassifyConcat(a, b, Start);
  }
  lemma BreschnewRaw0(a: seq<char>)
    requires a == "bresch"
    ensures Classify(a, Start) == "17088"
    ensures Scan(a, Start) == ScanState(Some('h'), false)
  {
    assert Classify("bresch", Start) == "17088";
    assert Scan("bresch", Start) == ScanState(Some('h'), false);
  }
  lemma BreschnewRaw1(b: seq<char>)
    requires b == "new"
    ensures Classify(b, ScanState(Some('h'), false)) == "603"
  {
    assert Classify("new", ScanState(Some('h'), false)) == "603";
  }
  lemma BreschnewCollapsed() ensures Collapse("17088603") == "1708603" {
    assert "17088603" == "170886" + "03";
    BreschnewCollapsedPieces("170886", "03");
  }
  lemma BreschnewCollapsedPieces(a: seq<char>, b: seq<char>)
    requires a == "170886" && b == "03"
    ensures Collapse(a + b) == "1708603"
  {
    BreschnewCollapsed0(a); BreschnewCollapsed1(b);
    CollapseConcat(a, b);
  }
  lemma BreschnewCollapsed0(a: seq<char>) requires a == "170886" ensures Collapse(a) == "17086" {
    assert Collapse("170886") == "17086";
  }
  lemma BreschnewCollapsed1(b: seq<char>) requires b == "03" ensures Collapse(b) == "03" {
    assert Collapse("03") == "03";
  }
  lemma BreschnewPruned() ensures Prune("1708603") == "17863" {}

  /** A leading vowel keeps its 0 (src/lib.rs:105) */
  lemma Erika()
    ensures Calculate("Erika") == "074"
  {
    ErikaLowered();
    ErikaRaw();
    ErikaCollapsed();
    ErikaPruned();
  }

  lemma ErikaLowered() ensures Lowercase("Erika") == "erika" {}
  lemma ErikaRaw() ensures Classify("erika", Start) == "07040" {}
  lemma ErikaCollapsed() ensures Collapse("07040") == "07040" {}
  lemma ErikaPruned() ensures Prune("07040") == "074" {}

  /** The double n collapses (src/lib.rs:106) */
  lemma Mustermann()
    ensures Calculate("Mustermann") == "682766"
  {
    MustermannLowered();
    MustermannRaw();
    MustermannCollapsed();
    MustermannPruned();
  }

  lemma MustermannLowered() ensures Lowercase("Mustermann") == "mustermann" {}
  lemma MustermannRaw() ensures Classify("mustermann", Start) == "6082076066" {
    assert "mustermann" == "muster" + "mann";
    MustermannRawPieces("muster", "mann");
  }
  lemma MustermannRawPieces(a: seq<char>, b: seq<char>)
    requires a == "muster" && b == "mann"
    ensures Classify(a + b, Start) == "6082076066"
  {
    MustermannRaw0(a); MustermannRaw1(b);
    ClassifyConcat(a, b, Start);
  }
  lemma MustermannRaw0(a: seq<char>)
    requires a == "muster"
    ensures Classify(a, Start) == "608207"
    ensures Scan(a, Start) == ScanState(Some('r'), false)
  {
    assert Classify("muster", Start) == "608207";
    assert Scan("muster", Start) == ScanState(Some('r'), false);
  }
  lemma MustermannRaw1(b: seq<char>)
    requires b == "mann"
    ensures Classify(b, ScanState(Some('r'), false)) == "6066"
  {
    assert Classify("mann", ScanState(Some('r'), false)) == "6066";
  }
  lemma MustermannCollapsed() ensures Collapse("6082076066") == "608207606" {
    assert "6082076066" == "608207" + "6066";
    MustermannCollapsedPieces("608207", "6066");
  }
  lemma MustermannCollapsedPieces(a: seq<char>, b: seq<char>)
    requires a == "608207" && b == "6066"
    ensures Collapse(a + b) == "608207606"
  {
    MustermannCollapsed0(a); MustermannCollapsed1(b);
    CollapseConcat(a, b);
  }
  lemma MustermannCollapsed0(a: seq<char>) requires a == "608207" ensures Collapse(a) == "608207" {
    assert Collapse("608207") == "608207";
  }
  lemma MustermannCollapsed1(b: seq<char>) requires b == "6066" ensures Collapse(b) == "606" {
    assert Collapse("6066") == "606";
  }
  lemma MustermannPruned() ensures Prune("608207606") == "682766" {
    assert "608207606" == "6" + ("082076" + "06");
    MustermannPrunedPieces("082076", "06");
  }
  lemma MustermannPrunedPieces(a: seq<char>, b: seq<char>)
    requires a == "082076" && b == "06"
    ensures Prune("6" + (a + b)) == "682766"
  {
    MustermannPruned0(a); MustermannPruned1(b);
    RemoveZerosConcat(a, b);
  }
  lemma MustermannPruned0(a: seq<char>) requires a == "082076" ensures RemoveZeros(a) == "8276" {
    assert RemoveZeros("082076") == "8276";
  }
  lemma MustermannPruned1(b: seq<char>) requires b == "06" ensures RemoveZeros(b) == "6" {
    assert RemoveZeros("06") == "6";
  }

  /** Two words: the second is coded from a fresh state and loses its zeros (src/lib.rs:107) */
  lemma ErikaMustermann()
    ensures Calculate("Erika Mustermann") == "074 682766"
  {
    ErikaMustermannLowered();
    ErikaMustermannRaw();
    ErikaMustermannCollapsed();
    ErikaMustermannPruned();
  }

  lemma ErikaMustermannLowered() ensures Lowercase("Erika Mustermann") == "erika mustermann" {}
  lemma ErikaMustermannRaw() ensures Classify("erika mustermann", Start) == "07040 6082076066" {
    assert "erika mustermann" == "erika " + ("muster" + "mann");
    ErikaMustermannRawPieces("erika ", "muster", "mann");
  }
  lemma ErikaMustermannRawPieces(a: seq<char>, b: seq<char>, c: seq<char>)
    requires a == "erika " && b == "muster" && c == "mann"
    ensures Classify(a + (b + c), Start) == "07040 6082076066"
  {
    ErikaMustermannRaw0(a); ErikaMustermannRaw1(b); ErikaMustermannRaw2(c);
    ClassifyConcat(a, b + c, Start);
    ClassifyConcat(b, c, Start);
  }
  lemma ErikaMustermannRaw0(a: seq<char>)
    requires a == "erika "
    ensures Classify(a, Start) == "07040 "
    ensures Scan(a, Start) == Start
  {
    assert Classify("erika ", Start) == "07040 ";
    assert Scan("erika ", Start) == Start;
  }
  lemma ErikaMustermannRaw1(b: seq<char>)
    requires b == "muster"
    ensures Classify(b, Start) == "608207"
    ensures Scan(b, Start) == ScanState(Some('r'), false)
  {
    assert Classify("muster", Start) == "608207";
    assert Scan("muster", Start) == ScanState(Some('r'), false);
  }
  lemma ErikaMustermannRaw2(c: seq<char>)
    requires c == "mann"
    ensures Classify(c, ScanState(Some('r'), false)) == "6066"
  {
    assert Classify("mann", ScanState(Some('r'), false)) == "6066";
  }
  lemma ErikaMustermannCollapsed() ensures Collapse("07040 6082076066") == "07040 608207606" {
    assert "07040 6082076066" == "07040 " + ("608207" + "6066");
    ErikaMustermannCollapsedPieces("07040 ", "608207", "6066");
  }
  lemma ErikaMustermannCollapsedPieces(a: seq<char>, b: seq<char>, c: seq<char>)
    requires a == "07040 " && b == "608207" && c == "6066"
    ensures Collapse(a + (b + c)) == "07040 608207606"
  {
    ErikaMustermannCollapsed0(a); ErikaMustermannCollapsed1(b); ErikaMustermannCollapsed2(c);
    CollapseConcat(a, b + c);
    CollapseConcat(b, c);
  }
  lemma ErikaMustermannCollapsed0(a: seq<char>) requires a == "07040 " ensures Collapse(a) == "07040 " {
    assert Collapse("07040 ") == "07040 ";
  }
  lemma ErikaMustermannCollapsed1(b: seq<char>) requires b == "608207" ensures Collapse(b) == "608207" {
    assert Collapse("608207") == "608207";
  }
  lemma ErikaMustermannCollapsed2(c: seq<char>) requires c == "6066" ensures Collapse(c) == "606" {
    assert Collapse("6066") == "606";
  }
  lemma ErikaMustermannPruned() ensures Prune("07040 608207606") == "074 682766" {
    assert "07040 608207606" == "0" + ("7040 6" + ("082076" + "06"));
    ErikaMustermannPrunedPieces("7040 6", "082076", "06");
  }
  lemma ErikaMustermannPrunedPieces(a: seq<char>, b: seq<char>, c: seq<char>)
    requires a == "7040 6" && b == "082076" && c == "06"
    ensures Prune("0" + (a + (b + c))) == "074 682766"
  {
    ErikaMustermannPruned0(a); ErikaMustermannPruned1(b); ErikaMustermannPruned2(c);
    RemoveZerosConcat(a, b + c);
    RemoveZerosConcat(b, c);
  }
  lemma ErikaMustermannPruned0(a: seq<char>) requires a == "7040 6" ensures RemoveZeros(a) == "74 6" {
    assert RemoveZeros("7040 6") == "74 6";
  }
  lemma ErikaMustermannPruned1(b: seq<char>) requires b == "082076" ensures RemoveZeros(b) == "8276" {
    assert RemoveZeros("082076") == "8276";
  }
  lemma ErikaMustermannPruned2(c: seq<char>) requires c == "06" ensures RemoveZeros(c) == "6" {
    assert RemoveZeros("06") == "6";
  }

  /** Umlauts are vowels; the hyphen contributes nothing; both ds code 2; the s and the c after it both code 8 and collapse (src/lib.rs:108) */
  lemma MuellerLuedenscheidt()
    ensures Calculate("Müller-Lüdenscheidt") == "65752682"
  {
    MuellerLuedenscheidtLowered();
    MuellerLuedenscheidtRaw();
    MuellerLuedenscheidtCollapsed();
    MuellerLuedenscheidtPruned();
  }

  lemma MuellerLuedenscheidtLowered() ensures Lowercase("Müller-Lüdenscheidt") == "müller-lüdenscheidt" {}
  lemma MuellerLuedenscheidtRaw() ensures Classify("müller-lüdenscheidt", Start) == "60550750206880022" {
    assert "müller-lüdenscheidt" == "müller" + ("-lüden" + ("schei" + "dt"));
    MuellerLuedenscheidtRawPieces("müller", "-lüden", "schei", "dt");
  }
  lemma MuellerLuedenscheidtRawPieces(a: seq<char>, b: seq<char>, c: seq<char>, d: seq<char>)
    requires a == "müller" && b == "-lüden" && c == "schei" && d == "dt"
    ensures Classify(a + (b + (c + d)), Start) == "60550750206880022"
  {
    MuellerLuedenscheidtRaw0(a); MuellerLuedenscheidtRaw1(b); MuellerLuedenscheidtRaw2(c); MuellerLuedenscheidtRaw3(d);
    ClassifyConcat(a, b + (c + d), Start);
    ClassifyConcat(b, c + d, ScanState(Some('r'), false));
    ClassifyConcat(c, d, ScanState(Some('n'), false));
  }
  lemma MuellerLuedenscheidtRaw0(a: seq<char>)
    requires a == "müller"
    ensures Classify(a, Start) == "605507"
    ensures Scan(a, Start) == ScanState(Some('r'), false)
  {
    assert Classify("müller", Start) == "605507";
    assert Scan("müller", Start) == ScanState(Some('r'), false);
  }
  lemma MuellerLuedenscheidtRaw1(b: seq<char>)
    requires b == "-lüden"
    ensures Classify(b, ScanState(Some('r'), false)) == "50206"
    ensures Scan(b, ScanState(Some('r'), false)) == ScanState(Some('n'), false)
  {
    assert Classify("-lüden", ScanState(Some('r'), false)) == "50206";
    assert Scan("-lüden", ScanState(Some('r'), false)) == ScanState(Some('n'), false);
  }
  lemma MuellerLuedenscheidtRaw2(c: seq<char>)
    requires c == "schei"
    ensures Classify(c, ScanState(Some('n'), false)) == "8800"
    ensures Scan(c, ScanState(Some('n'), false)) == ScanState(Some('i'), false)
  {
    assert Classify("schei", ScanState(Some('n'), false)) == "8800";
    assert Scan("schei", ScanState(Some('n'), false)) == ScanState(Some('i'), false);
  }
  lemma MuellerLuedenscheidtRaw3(d: seq<char>)
    requires d == "dt"
    ensures Classify(d, ScanState(Some('i'), false)) == "22"
  {
    assert Classify("dt", ScanState(Some('i'), false)) == "22";
  }
  lemma MuellerLuedenscheidtCollapsed() ensures Collapse("60550750206880022") == "6050750206802" {
    assert "60550750206880022" == "605507" + ("50206" + "880022");
    MuellerLuedenscheidtCollapsedPieces("605507", "50206", "880022");
  }
  lemma MuellerLuedenscheidtCollapsedPieces(a: seq<char>, b: seq<char>, c: seq<char>)
    requires a == "605507" && b == "50206" && c == "880022"
    ensures Collapse(a + (b + c)) == "6050750206802"
  {
    MuellerLuedenscheidtCollapsed0(a); MuellerLuedenscheidtCollapsed1(b); MuellerLuedenscheidtCollapsed2(c);
    CollapseConcat(a, b + c);
    CollapseConcat(b, c);
  }
  lemma MuellerLuedenscheidtCollapsed0(a: seq<char>) requires a == "605507" ensures Collapse(a) == "60507" {
    assert Collapse("605507") == "60507";
  }
  lemma MuellerLuedenscheidtCollapsed1(b: seq<char>) requires b == "50206" ensures Collapse(b) == "50206" {
    assert Collapse("50206") == "50206";
  }
  lemma MuellerLuedenscheidtCollapsed2(c: seq<char>) requires c == "880022" ensures Collapse(c) == "802" {
    assert Collapse("880022") == "802";
  }
  lemma MuellerLuedenscheidtPruned() ensures Prune("6050750206802") == "65752682" {
    assert "6050750206802" == "6" + ("050750" + "206802");
    MuellerLuedenscheidtPrunedPieces("050750", "206802");
  }
  lemma MuellerLuedenscheidtPrunedPieces(a: seq<char>, b: seq<char>)
    requires a == "050750" && b == "206802"
    ensures Prune("6" + (a + b)) == "65752682"
  {
    MuellerLuedenscheidtPruned0(a); MuellerLuedenscheidtPruned1(b);
    RemoveZerosConcat(a, b);
  }
  lemma MuellerLuedenscheidtPruned0(a: seq<char>) requires a == "050750" ensures RemoveZeros(a) == "575" {
    assert RemoveZeros("050750") == "575";
  }
  lemma MuellerLuedenscheidtPruned1(b: seq<char>) requires b == "206802" ensures RemoveZeros(b) == "2682" {
    assert RemoveZeros("206802") == "2682";
  }

  /** After a space the c is word-initial: before l it codes 4 (src/lib.rs:109) */
  lemma HeinzClassen()
    ensures Calculate("Heinz Classen") == "068 4586"
  {
    HeinzClassenLowered();
    HeinzClassenRaw();
    HeinzClassenCollapsed();
    HeinzClassenPruned();
  }

  lemma HeinzClassenLowered() ensures Lowercase("Heinz Classen") == "heinz classen" {}
  lemma HeinzClassenRaw() ensures Classify("heinz classen", Start) == "0068 4508806" {
    assert "heinz classen" == "heinz " + ("classe" + "n");
    HeinzClassenRawPieces("heinz ", "classe", "n");
  }
  lemma HeinzClassenRawPieces(a: seq<char>, b: seq<char>, c: seq<char>)
    requires a == "heinz " && b == "classe" && c == "n"
    ensures Classify(a + (b + c), Start) == "0068 4508806"
  {
    HeinzClassenRaw0(a); HeinzClassenRaw1(b); HeinzClassenRaw2(c);
    ClassifyConcat(a, b + c, Start);
    ClassifyConcat(b, c, Start);
  }
  lemma HeinzClassenRaw0(a: seq<char>)
    requires a == "heinz "
    ensures Classify(a, Start) == "0068 "
    ensures Scan(a, Start) == Start
  {
    assert Classify("heinz ", Start) == "0068 ";
    assert Scan("heinz ", Start) == Start;
  }
  lemma HeinzClassenRaw1(b: seq<char>)
    requires b == "classe"
    ensures Classify(b, Start) == "450880"
    ensures Scan(b, Start) == ScanState(Some('e'), false)
  {
    assert Classify("classe", Start) == "450880";
    assert Scan("classe", Start) == ScanState(Some('e'), false);
  }
  lemma HeinzClassenRaw2(c: seq<char>)
    requires c == "n"
    ensures Classify(c, ScanState(Some('e'), false)) == "6"
  {
    assert Classify("n", ScanState(Some('e'), false)) == "6";
  }
  lemma HeinzClassenCollapsed() ensures Collapse("0068 4508806") == "068 450806" {
    assert "0068 4508806" == "0068 4" + "508806";
    HeinzClassenCollapsedPieces("0068 4", "508806");
  }
  lemma HeinzClassenCollapsedPieces(a: seq<char>, b: seq<char>)
    requires a == "0068 4" && b == "508806"
    ensures Collapse(a + b) == "068 450806"
  {
    HeinzClassenCollapsed0(a); HeinzClassenCollapsed1(b);
    CollapseConcat(a, b);
  }
  lemma HeinzClassenCollapsed0(a: seq<char>) requires a == "0068 4" ensures Collapse(a) == "068 4" {
    assert Collapse("0068 4") == "068 4";
  }
  lemma HeinzClassenCollapsed1(b: seq<char>) requires b == "508806" ensures Collapse(b) == "50806" {
    assert Collapse("508806") == "50806";
  }
  lemma HeinzClassenPruned() ensures Prune("068 450806") == "068 4586" {
    assert "068 450806" == "0" + ("68 450" + "806");
    HeinzClassenPrunedPieces("68 450", "806");
  }
  lemma HeinzClassenPrunedPieces(a: seq<char>, b: seq<char>)
    requires a == "68 450" && b == "806"
    ensures Prune("0" + (a + b)) == "068 4586"
  {
    HeinzClassenPruned0(a); HeinzClassenPruned1(b);
    RemoveZerosConcat(a, b);
  }
  lemma HeinzClassenPruned0(a: seq<char>) requires a == "68 450" ensures RemoveZeros(a) == "68 45" {
    assert RemoveZeros("68 450") == "68 45";
  }
  lemma HeinzClassenPruned1(b: seq<char>) requires b == "806" ensures RemoveZeros(b) == "86" {
    assert RemoveZeros("806") == "86";
  }

  /** After a hyphen the c is not word-initial: before l it codes 8 (src/lib.rs:110) */
  lemma HeinzHyphenClassen()
    ensures Calculate("Heinz-Classen") == "068586"
  {
    HeinzHyphenClassenLowered();
    HeinzHyphenClassenRaw();
    HeinzHyphenClassenCollapsed();
    HeinzHyphenClassenPruned();
  }

  lemma HeinzHyphenClassenLowered() ensures Lowercase("Heinz-Classen") == "heinz-classen" {}
  lemma HeinzHyphenClassenRaw() ensures Classify("heinz-classen", Start) == "00688508806" {
    assert "heinz-classen" == "heinz-" + ("classe" + "n");
    HeinzHyphenClassenRawPieces("heinz-", "classe", "n");
  }
  lemma HeinzHyphenClassenRawPieces(a: seq<char>, b: seq<char>, c: seq<char>)
    requires a == "heinz-" && b == "classe" && c == "n"
    ensures Classify(a + (b + c), Start) == "00688508806"
  {
    HeinzHyphenClassenRaw0(a); HeinzHyphenClassenRaw1(b); HeinzHyphenClassenRaw2(c);
    ClassifyConcat(a, b + c, Start);
    ClassifyConcat(b, c, ScanState(Some('-'), false));
  }
  lemma HeinzHyphenClassenRaw0(a: seq<char>)
    requires a == "heinz-"
    ensures Classify(a, Start) == "0068"
    ensures Scan(a, Start) == ScanState(Some('-'), false)
  {
    assert Classify("heinz-", Start) == "0068";
    assert Scan("heinz-", Start) == ScanState(Some('-'), false);
  }
  lemma HeinzHyphenClassenRaw1(b: seq<char>)
    requires b == "classe"
    ensures Classify(b, ScanState(Some('-'), false)) == "850880"
    ensures Scan(b, ScanState(Some('-'), false)) == ScanState(Some('e'), false)
  {
    assert Classify("classe", ScanState(Some('-'), false)) == "850880";
    assert Scan("classe", ScanState(Some('-'), false)) == ScanState(Some('e'), false);
  }
  lemma HeinzHyphenClassenRaw2(c: seq<char>)
    requires c == "n"
    ensures Classify(c, ScanState(Some('e'), false)) == "6"
  {
    assert Classify("n", ScanState(Some('e'), false)) == "6";
  }
  lemma HeinzHyphenClassenCollapsed() ensures Collapse("00688508806") == "06850806" {
    assert "00688508806" == "006885" + "08806";
    HeinzHyphenClassenCollapsedPieces("006885", "08806");
  }
  lemma HeinzHyphenClassenCollapsedPieces(a: seq<char>, b: seq<char>)
    requires a == "006885" && b == "08806"
    ensures Collapse(a + b) == "06850806"
  {
    HeinzHyphenClassenCollapsed0(a); HeinzHyphenClassenCollapsed1(b);
    CollapseConcat(a, b);
  }
  lemma HeinzHyphenClassenCollapsed0(a: seq<char>) requires a == "006885" ensures Collapse(a) == "0685" {
    assert Collapse("006885") == "0685";
  }
  lemma HeinzHyphenClassenCollapsed1(b: seq<char>) requires b == "08806" ensures Collapse(b) == "0806" {
    assert Collapse("08806") == "0806";
  }
  lemma HeinzHyphenClassenPruned() ensures Prune("06850806") == "068586" {
    assert "06850806" == "0" + ("685080" + "6");
    HeinzHyphenClassenPrunedPieces("685080", "6");
  }
  lemma HeinzHyphenClassenPrunedPieces(a: seq<char>, b: seq<char>)
    requires a == "685080" && b == "6"
    ensures Prune("0" + (a + b)) == "068586"
  {
    HeinzHyphenClassenPruned0(a); HeinzHyphenClassenPruned1(b);
    RemoveZerosConcat(a, b);
  }
  lemma HeinzHyphenClassenPruned0(a: seq<char>) requires a == "685080" ensures RemoveZeros(a) == "6858" {
    assert RemoveZeros("685080") == "6858";
  }
  lemma HeinzHyphenClassenPruned1(b: seq<char>) requires b == "6" ensures RemoveZeros(b) == "6" {
    assert RemoveZeros("6") == "6";
  }

  /** A c after a vowel and before h codes 4 (src/lib.rs:111) */
  lemma Acht()
    ensures Calculate("Acht") == "042"
  {
    AchtLowered();
    AchtRaw();
    AchtCollapsed();
    AchtPruned();
  }

  lemma AchtLowered() ensures Lowercase("Acht") == "acht" {}
  lemma AchtRaw() ensures Classify("acht", Start) == "042" {}
  lemma AchtCollapsed() ensures Collapse("042") == "042" {}
  lemma AchtPruned() ensures Prune("042") == "042" {}

  /** A word-initial c before i codes 8; before u inside the word, 4 (src/lib.rs:129) */
  lemma Circus()
    ensures Calculate("Circus") == "8748"
  {
    CircusLowered();
    CircusRaw();
    CircusCollapsed();
    CircusPruned();
  }

  lemma CircusLowered() ensures Lowercase("Circus") == "circus" {}
  lemma CircusRaw() ensures Classify("circus", Start) == "807408" {}
  lemma CircusCollapsed() ensures Collapse("807408") == "807408" {}
  lemma CircusPruned() ensures Prune("807408") == "8748" {}

  /** p before h codes 3 (src/lib.rs:134) */
  lemma Delphin()
    ensures Calculate("Delphin") == "2536"
  {
    DelphinLowered();
    DelphinRaw();
    DelphinCollapsed();
    DelphinPruned();
  }

  lemma DelphinLowered() ensures Lowercase("Delphin") == "delphin" {}
  lemma DelphinRaw() ensures Classify("delphin", Start) == "205306" {
    assert "delphin" == "delphi" + "n";
    DelphinRawPieces("delphi", "n");
  }
  lemma DelphinRawPieces(a: seq<char>, b: seq<char>)
    requires a == "delphi" && b == "n"
    ensures Classify(a + b, Start) == "205306"
  {
    DelphinRaw0(a); DelphinRaw1(b);
    ClassifyConcat(a, b, Start);
  }
  lemma DelphinRaw0(a: seq<char>)
    requires a == "delphi"
    ensures Classify(a, Start) == "20530"
    ensures Scan(a, Start) == ScanState(Some('i'), false)
  {
    assert Classify("delphi", Start) == "20530";
    assert Scan("delphi", Start) == ScanState(Some('i'), false);
  }
  lemma DelphinRaw1(b: seq<char>)
    requires b == "n"
    ensures Classify(b, ScanState(Some('i'), false)) == "6"
  {
    assert Classify("n", ScanState(Some('i'), false)) == "6";
  }
  lemma DelphinCollapsed() ensures Collapse("205306") == "205306" {}
  lemma DelphinPruned() ensures Prune("205306") == "2536" {}

  /** An x not after c, k or q codes 48 (src/lib.rs:161) */
  lemma Hexe()
    ensures Calculate("Hexe") == "048"
  {
    HexeLowered();
    HexeRaw();
    HexeCollapsed();
    HexePruned();
  }

  lemma HexeLowered() ensures Lowercase("Hexe") == "hexe" {}
  lemma HexeRaw() ensures Classify("hexe", Start) == "0480" {}
  lemma HexeCollapsed() ensures Collapse("0480") == "0480" {}
  lemma HexePruned() ensures Prune("0480") == "048" {}

  /** j is a vowel: the whole word codes 0 (src/lib.rs:172) */
  lemma JoJo()
    ensures Calculate("Jo-Jo") == "0"
  {
    JoJoLowered();
    JoJoRaw();
    JoJoCollapsed();
    JoJoPruned();
  }

  lemma JoJoLowered() ensures Lowercase("Jo-Jo") == "jo-jo" {}
  lemma JoJoRaw() ensures Classify("jo-jo", Start) == "0000" {}
  lemma JoJoCollapsed() ensures Collapse("0000") == "0" {}
  lemma JoJoPruned() ensures Prune("0") == "0" {}

  /** A c after an s that does not start the word codes 8 (src/lib.rs:179) */
  lemma Kirsche()
    ensures Calculate("Kirsche") == "478"
  {
    KirscheLowered();
    KirscheRaw();
    KirscheCollapsed();
    KirschePruned();
  }

  lemma KirscheLowered() ensures Lowercase("Kirsche") == "kirsche" {}
  lemma KirscheRaw() ensures Classify("kirsche", Start) == "407880" {
    assert "kirsche" == "kirsch" + "e";
    KirscheRawPieces("kirsch", "e");
  }
  lemma KirscheRawPieces(a: seq<char>, b: seq<char>)
    requires a == "kirsch" && b == "e"
    ensures Classify(a + b, Start) == "407880"
  {
    KirscheRaw0(a); KirscheRaw1(b);
    ClassifyConcat(a, b, Start);
  }
  lemma KirscheRaw0(a: seq<char>)
    requires a == "kirsch"
    ensures Classify(a, Start) == "40788"
    ensures Scan(a, Start) == ScanState(Some('h'), false)
  {
    assert Classify("kirsch", Start) == "40788";
    assert Scan("kirsch", Start) == ScanState(Some('h'), false);
  }
  lemma KirscheRaw1(b: seq<char>)
    requires b == "e"
    ensures Classify(b, ScanState(Some('h'), false)) == "0"
  {
    assert Classify("e", ScanState(Some('h'), false)) == "0";
  }
  lemma KirscheCollapsed() ensures Collapse("407880") == "40780" {}
  lemma KirschePruned() ensures Prune("40780") == "478" {}

  /** The empty text codes as the empty text (src/lib.rs:187) */
  lemma Empty()
    ensures Calculate("") == ""
  {
    EmptyLowered();
    EmptyRaw();
    EmptyCollapsed();
    EmptyPruned();
  }

  lemma EmptyLowered() ensures Lowercase("") == "" {}
  lemma EmptyRaw() ensures Classify("", Start) == "" {}
  lemma EmptyCollapsed() ensures Collapse("") == "" {}
  lemma EmptyPruned() ensures Prune("") == "" {}

  /** Adjacent equal digits survive when a pruned 0 separated them (src/lib.rs:201) */
  lemma Mond()
    ensures Calculate("Mond") == "662"
  {
    MondLowered();
    MondRaw();
    MondCollapsed();
    MondPruned();
  }

  lemma MondLowered() ensures Lowercase("Mond") == "mond" {}
  lemma MondRaw() ensures Classify("mond", Start) == "6062" {}
  lemma MondCollapsed() ensures Collapse("6062") == "6062" {}
  lemma MondPruned() ensures Prune("6062") == "662" {}

  /** t before z codes 8 (src/lib.rs:208) */
  lemma Netz()
    ensures Calculate("Netz") == "68"
  {
    NetzLowered();
    NetzRaw();
    NetzCollapsed();
    NetzPruned();
  }

  lemma NetzLowered() ensures Lowercase("Netz") == "netz" {}
  lemma NetzRaw() ensures Classify("netz", Start) == "6088" {}
  lemma NetzCollapsed() ensures Collapse("6088") == "608" {}
  lemma NetzPruned() ensures Prune("608") == "68" {}

  /** Adjacent equal digits survive when a pruned 0 separated them (src/lib.rs:220) */
  lemma Papagei()
    ensures Calculate("Papagei") == "114"
  {
    PapageiLowered();
    PapageiRaw();
    PapageiCollapsed();
    PapageiPruned();
  }

  lemma PapageiLowered() ensures Lowercase("Papagei") == "papagei" {}
  lemma PapageiRaw() ensures Classify("papagei", Start) == "1010400" {
    assert "papagei" == "papage" + "i";
    PapageiRawPieces("papage", "i");
  }
  lemma PapageiRawPieces(a: seq<char>, b: seq<char>)
    requires a == "papage" && b == "i"
    ensures Classify(a + b, Start) == "1010400"
  {
    PapageiRaw0(a); PapageiRaw1(b);
    ClassifyConcat(a, b, Start);
  }
  lemma PapageiRaw0(a: seq<char>)
    requires a == "papage"
    ensures Classify(a, Start) == "101040"
    ensures Scan(a, Start) == ScanState(Some('e'), false)
  {
    assert Classify("papage", Start) == "101040";
    assert Scan("papage", Start) == ScanState(Some('e'), false);
  }
  lemma PapageiRaw1(b: seq<char>)
    requires b == "i"
    ensures Classify(b, ScanState(Some('e'), false)) == "0"
  {
    assert Classify("i", ScanState(Some('e'), false)) == "0";
  }
  lemma PapageiCollapsed() ensures Collapse("1010400") == "101040" {
    assert "1010400" == "10104" + "00";
    PapageiCollapsedPieces("10104", "00");
  }
  lemma PapageiCollapsedPieces(a: seq<char>, b: seq<char>)
    requires a == "10104" && b == "00"
    ensures Collapse(a + b) == "101040"
  {
    PapageiCollapsed0(a); PapageiCollapsed1(b);
    CollapseConcat(a, b);
  }
  lemma PapageiCollapsed0(a: seq<char>) requires a == "10104" ensures Collapse(a) == "10104" {
    assert Collapse("10104") == "10104";
  }
  lemma PapageiCollapsed1(b: seq<char>) requires b == "00" ensures Collapse(b) == "0" {
    assert Collapse("00") == "0";
  }
  lemma PapageiPruned() ensures Prune("101040") == "114" {}

  /** h contributes nothing, so the two 0s collapse (src/lib.rs:249) */
  lemma Uhu()
    ensures Calculate("Uhu") == "0"
  {
    UhuLowered();
    UhuRaw();
    UhuCollapsed();
    UhuPruned();
  }

  lemma UhuLowered() ensures Lowercase("Uhu") == "uhu" {}
  lemma UhuRaw() ensures Classify("uhu", Start) == "00" {}
  lemma UhuCollapsed() ensures Collapse("00") == "0" {}
  lemma UhuPruned() ensures Prune("0") == "0" {}

  /** A word-initial x codes 48 (src/lib.rs:263) */
  lemma Xaver()
    ensures Calculate("Xaver") == "4837"
  {
    XaverLowered();
    XaverRaw();
    XaverCollapsed();
    XaverPruned();
  }

  lemma XaverLowered() ensures Lowercase("Xaver") == "xaver" {}
  lemma XaverRaw() ensures Classify("xaver", Start) == "480307" {}
  lemma XaverCollapsed() ensures Collapse("480307") == "480307" {}
  lemma XaverPruned() ensures Prune("480307") == "4837" {}

  /** A word-initial c before h codes 4 (src/lib.rs:288) */
  lemma Chinese()
    ensures Calculate("Chinese") == "468"
  {
    ChineseLowered();
    ChineseRaw();
    ChineseCollapsed();
    ChinesePruned();
  }

  lemma ChineseLowered() ensures Lowercase("Chinese") == "chinese" {}
  lemma ChineseRaw() ensures Classify("chinese", Start) == "406080" {
    assert "chinese" == "chines" + "e";
    ChineseRawPieces("chines", "e");
  }
  lemma ChineseRawPieces(a: seq<char>, b: seq<char>)
    requires a == "chines" && b == "e"
    ensures Classify(a + b, Start) == "406080"
  {
    ChineseRaw0(a); ChineseRaw1(b);
    ClassifyConcat(a, b, Start);
  }
  lemma ChineseRaw0(a: seq<char>)
    requires a == "chines"
    ensures Classify(a, Start) == "40608"
    ensures Scan(a, Start) == ScanState(Some('s'), false)
  {
    assert Classify("chines", Start) == "40608";
    assert Scan("chines", Start) == ScanState(Some('s'), false);
  }
  lemma ChineseRaw1(b: seq<char>)
    requires b == "e"
    ensures Classify(b, ScanState(Some('s'), false)) == "0"
  {
    assert Classify("e", ScanState(Some('s'), false)) == "0";
  }
  lemma ChineseCollapsed() ensures Collapse("406080") == "406080" {}
  lemma ChinesePruned() ensures Prune("406080") == "468" {}

  /** p before f codes 1 (src/lib.rs:300) */
  lemma Pferd()
    ensures Calculate("Pferd") == "1372"
  {
    PferdLowered();
    PferdRaw();
    PferdCollapsed();
    PferdPruned();
  }

  lemma PferdLowered() ensures Lowercase("Pferd") == "pferd" {}
  lemma PferdRaw() ensures Classify("pferd", Start) == "13072" {}
  lemma PferdCollapsed() ensures Collapse("13072") == "13072" {}
  lemma PferdPruned() ensures Prune("13072") == "1372" {}

  /** A c right after a word-initial s, before h, codes 4 (src/lib.rs:305) */
  lemma Schaf()
    ensures Calculate("Schaf") == "843"
  {
    SchafLowered();
    SchafRaw();
    SchafCollapsed();
    SchafPruned();
  }

  lemma SchafLowered() ensures Lowercase("Schaf") == "schaf" {}
  lemma SchafRaw() ensures Classify("schaf", Start) == "8403" {}
  lemma SchafCollapsed() ensures Collapse("8403") == "8403" {}
  lemma SchafPruned() ensures Prune("8403") == "843" {}

  /** A single x codes as two digits, so the code can be longer than the
      text (src/lib.rs:47-48) */
  lemma LongerThanInput()
    ensures Calculate("X") == "48"
    ensures |Calculate("X")| > |"X"|
  {
    assert Lowercase("X") == "x";
    assert Classify("x", Start) == "48";
  }

  /** Two equal digits can end up side by side once the 0 between them is
      pruned (src/lib.rs:86-94) */
  lemma AdjacentDuplicatesSurvive()
    ensures var r := Calculate("Mond"); |r| == 3 && r[0] == r[1]
  {
    Mond();
  }

  /** The Kelvin sign lower-cases to k, so after a word-initial c it makes
      the c a 4 (src/lib.rs:14) */
  lemma KelvinSign()
    ensures Calculate("c\U{212A}") == "4"
  {
    assert Lowercase("c\U{212A}") == "ck";
    assert Classify("ck", Start) == "44";
  }

  /** Neighbouring raw spaces collapse into one, also when a character
      without a code stands between them (src/lib.rs:79-85) */
  lemma SpacesMerge()
    ensures Calculate("a  b") == "0 1"
    ensures Calculate("a - b") == "0 1"
  {
    SpacesMergeLowered();
    SpacesMergeRaw();
    SpacesMergeCollapsed();
    SpacesMergePruned();
  }

  lemma SpacesMergeLowered()
    ensures Lowercase("a  b") == "a  b" && Lowercase("a - b") == "a - b"
  {}
  lemma SpacesMergeRaw()
    ensures Classify("a  b", Start) == "0  1" && Classify("a - b", Start) == "0  1"
  {
    SpacesMergeRaw0();
    SpacesMergeRaw1();
  }
  lemma SpacesMergeRaw0() ensures Classify("a  b", Start) == "0  1" {}
  lemma SpacesMergeRaw1() ensures Classify("a - b", Start) == "0  1" {}
  lemma SpacesMergeCollapsed() ensures Collapse("0  1") == "0 1" {}
  lemma SpacesMergePruned() ensures Prune("0 1") == "0 1" {}
}
